=== FILE: README.md ===
# MySQL server connection phase, modelled in Dafny

This project models the server side of a MySQL client connection as
`server/connection.go` implements it:

- the Protocol::HandshakeV10 greeting the server sends first (`writeInitialHandshake`);
- the parser of the client's Protocol::HandshakeResponse41 and the login decision (`readHandshakeResponse`);
- the OK, ERR and EOF response payloads (`writeOK`, `writeError`, `writeEOF`, `writeEOFBatch`);
- the session state machine: `Handshake`, `Close`, and the command loop `Run`.

Payloads are `seq<bv8>` built and read by pure functions. Every payload keeps
the 4-byte header placeholder the Go code reserves for the packet writer.
Each encoder has a client-side reader of the documented layout as its
partner, and round-trip lemmas show that reading a payload back gives the
written fields.

Where Go would index or slice out of range on a malformed handshake
response, and so panic, the parser returns an explicit `Malformed` reason.
The session then reports the outcome `Fault`.

The session is an immutable record. Transport writes and reads are `Io`
events whose success is given as input, and `Handshake` returns the trace of
transport calls it made, in order, whether or not they succeeded. The command
dispatcher is a function parameter. `Run` is
both a recursive reference definition (`RunSpec`) and the loop itself
(`Run`), and the loop is proved equal to the definition.

Files:

- `wrappers.dfy` holds `Option` and `Result`.
- `bytes.dfy` holds little-endian packing and `bytes.IndexByte`.
- `mysql.dfy` holds what the code takes from the `mysql` package.
- `greeting.dfy` holds the greeting.
- `handshake_response.dfy` holds the response parser and the login decision.
- `responses.dfy` holds the OK, ERR and EOF payloads.
- `client_conn.dfy` holds the session, `Handshake`, `Close` and `Run`.

The `mysql` package is not part of this model. The values it defines form
the `Constants` record, which every operation takes as a parameter:

- the protocol version and server version;
- the default collation;
- the `CLIENT_*` bits and the error codes;
- the SQL-state and message tables;
- `PutLengthEncodedInt` and `CalcPassword`.

Only the header bytes `0x00`, `0xff` and `0xfe` are fixed, because the wire
protocol fixes them. `ValidConstants` states the one property of
`PutLengthEncodedInt` that is used: a value below 251 is written as that
single byte.

Two behaviours of the code are worth noting:

- The session's capability word is the client's word exactly as sent (`server/connection.go:99`). It is not intersected with the server's default capabilities.
- When the client sets CLIENT_CONNECT_WITH_DB but sends no bytes after the auth response, the code returns early and leaves `c.db` as it was (`server/connection.go:135-137`). It does not set the database to empty. `DbField` returns `Ok(None)` for this case, and `Stored` keeps the old database.

## Model

| member | source | states |
|---|---|---|
| Bytes.IndexByte | server/connection.go:110 | The result is -1 exactly when the byte is absent; otherwise it is the position of the first occurrence, with no earlier occurrence. |
| Bytes.Le32RoundTrip | server/connection.go:56 | Reading back the four little-endian bytes `byte(x), byte(x>>8), byte(x>>16), byte(x>>24)` gives `x`. |
| Bytes.Le16RoundTrip | server/connection.go:70 | Reading back the two little-endian bytes `byte(x), byte(x>>8)` gives `x`. |
| Mysql.AsSqlError | server/connection.go:192-196 | A `SqlError` is encoded as it is. Any other error becomes ER_UNKNOWN_ERROR carrying that error's text as its message. |
| InitialHandshake.GreetingLayout | server/connection.go:44-88 | After the 4-byte header, the greeting holds, in order: the protocol version; the server version and a NUL; the little-endian connection id; `salt[0:8]` and a zero; the low capability half; the collation; the little-endian status; the high capability half; `0x15`; ten zeros; `salt[8:]`; a final zero. Its length is `30 + |ServerVersion| + |salt|`. |
| InitialHandshake.GreetingRoundTrip | server/connection.go:44-88 | A client reading the greeting recovers the protocol version, the server version, the connection id and the whole salt. The two split capability halves recombine to DEFAULT_CAPABILITY (line 16). The collation and the status come back too. |
| HandshakeResponse.AuthLengthAt | server/connection.go:109-111 | The user name ends at the first NUL at or after offset 32 (4 + 4 + 1 + 23). The auth-length byte sits right after that NUL. |
| HandshakeResponse.ParseCredentials | server/connection.go:96-116 | On success: the capability is the little-endian uint32 of bytes 0..3; the user runs from offset 32 to the first NUL; the next byte gives the auth length; that many auth bytes follow; the rest is what remains. Each failure holds exactly when its condition holds: fewer than 4 bytes, fewer than 32, no NUL after offset 32, no byte left for the auth length, or the auth length running past the end. |
| HandshakeResponse.DbField | server/connection.go:132-144 | Without CLIENT_CONNECT_WITH_DB the database becomes empty. With the bit set and no bytes left, the database is unchanged. With bytes left, it is the bytes before the first NUL. With bytes left but no NUL, it is a fault. |
| HandshakeResponse.ReadResponse | server/connection.go:91-145 | Access is denied exactly when the payload parses and the credentials are not "root" with `CalcPassword(salt, "123")`. The denial carries ER_ACCESS_DENIED_ERROR with the user, the remote address and "Yes". It is accepted only for "root" with that scramble. It is a fault exactly when the credentials are malformed, or when they are authentic and the database field is malformed. |
| HandshakeResponse.CredentialsRoundTrip | server/connection.go:96-116 | The server reads back the capability word, the user and the auth response that a client encoded. The database bytes are what remains. |
| HandshakeResponse.ResponseRoundTrip | server/connection.go:118-144 | A well-formed response is denied with the access-denied error unless it is "root" with the right scramble. An accepted response selects the database the client named. If the client did not set CLIENT_CONNECT_WITH_DB, the database is cleared. |
| Responses.OkLayout | server/connection.go:172-189 | The OK payload is the header, `0x00`, lenenc(affected rows) and lenenc(insert id). Only under CLIENT_PROTOCOL_41 does it continue with the little-endian status and two zeros. A nil result means the session status with no rows and no insert id. |
| Responses.OkRoundTrip | server/connection.go:172-189 | Reading back an OK payload whose counts are below 251 recovers both counts. Under CLIENT_PROTOCOL_41 it also recovers the status, and without it there is no status. |
| Responses.ErrPayload | server/connection.go:191-212 | The ERR payload is the header, `0xff` and the little-endian code. Only under CLIENT_PROTOCOL_41 does `'#'` followed by the state come next. The message follows with no terminator. |
| Responses.ErrRoundTrip | server/connection.go:191-212 | Reading back an ERR payload recovers the code and the whole message. Under CLIENT_PROTOCOL_41 it also recovers the five-byte state. |
| Responses.EofPayload | server/connection.go:214-225 | The EOF payload is 9 bytes long under CLIENT_PROTOCOL_41 and 5 bytes otherwise. It is the header and `0xfe`, then under 4.1 two zeros and the little-endian status. |
| Responses.EofRoundTrip | server/connection.go:214-225 | Reading back an EOF payload recovers the status under CLIENT_PROTOCOL_41 and no status otherwise. |
| Responses.EofBatch | server/connection.go:227-237 | `writeEOFBatch` hands the batch writer exactly the payload `writeEOF` writes, together with the accumulated bytes and `direct` unchanged. |
| ClientConn.Close | server/connection.go:238-248 | Afterwards the session is closed. A closed session is left unchanged. An open one has its transport closed once, and nothing else changes. |
| ClientConn.CloseIdempotent | server/connection.go:238-248 | Closing twice is the same as closing once. The transport is closed at most once, and not at all if the session was already closed. |
| ClientConn.Conclude | server/connection.go:154-169 | The OK write is attempted exactly when the login was accepted. It carries the 4.1 fields according to the client's capability word and reports the session status. The call is done exactly when the login was accepted and the OK write succeeded, and then the sequence counter is 0; otherwise the counter is left as it was. An accepted login stores the user, the capability word and the database the client named, or keeps the old database when none was named. A denial fails with its access-denied error, but the session has already taken the client's user and capability word, with the database untouched. A malformed payload faults and leaves the session as it was. |
| ClientConn.AfterGreeting | server/connection.go:154-159 | After the greeting, one packet is read. A failed read fails the handshake with that read's error and writes nothing. |
| ClientConn.Handshake | server/connection.go:147-170 | The greeting is written first. If that write fails, the handshake fails with its error and nothing else happens. The response read comes next, and at most one packet follows it. Success leaves the sequence counter at 0. The salt, the connection id and the closed flag are unchanged. |
| ClientConn.HandshakeOutcome | server/connection.go:147-170 | Given a delivered greeting and response, the OK write is attempted exactly when the response is accepted, and the user is then "root". The handshake succeeds exactly when the response is accepted and the OK write succeeds. Denied and malformed responses end in the denial error and the fault respectively. |
| ClientConn.LoginAccepted | server/connection.go:118-169 | A client sending "root" with the scramble of the salt and "123" gets exactly the greeting, its read and one OK packet. The session then holds that user and the client's capability word, with the sequence counter at 0. Its database is empty when CLIENT_CONNECT_WITH_DB is clear, the name sent when the bit is set, and unchanged when the bit is set but no name follows. |
| ClientConn.LoginDenied | server/connection.go:99-131 | A client with any other user or scramble gets the access-denied error carrying its user, the remote address and "Yes", and no OK packet. The session has already taken that user and the client's capability word, and its database is unchanged. |
| ClientConn.RoundOf | server/connection.go:270-281 | One pass of the loop reads a packet and dispatches it. It stops on a dispatcher panic or when the session is closed. Otherwise it resets the sequence counter to 0 and continues. When it stops, the exit is a recovered panic exactly when the dispatcher panicked, and a closed session otherwise. |
| ClientConn.RunSpec | server/connection.go:253-283 | Whatever the exit path, the session ends closed, the last step is the deferred close, and the step before it is the one that ended the loop: a read error, a closed session or a recovered panic. |
| ClientConn.Run | server/connection.go:253-283 | The loop does exactly what the recursive definition `RunSpec` does. |
| ClientConn.CloseIsLast | server/connection.go:254-267 | The deferred close happens once, as the very last step, on every exit path. |
| ClientConn.ResetBetweenCommands | server/connection.go:276-281 | The sequence counter is reset only after a dispatch that left the session open, and every reset is followed by the next read. |
| ClientConn.ReadsFollowScript | server/connection.go:270-281 | The dispatcher receives the transport's packets in order and never any packet past the first failed read. The first read happens at the session's counter, and every later read happens at counter 0. |
| ClientConn.ExitMatchesScript | server/connection.go:253-283 | The loop reports a read error only after it has handed over every packet before the script's first failed read. It reports a panic or a closed session only after at least one packet, and never past that failed read. |
| ClientConn.RunsUntilReadFails | server/connection.go:270-275 | With a dispatcher that never panics and never closes the session, the loop ends on a read error, after handing over every packet before the first failed read. |

## Left out

- The transport and the framing layer (`net.Conn`, `PacketIO.ReadPacket`, `WritePacket`, `WritePacketBatch`) are not part of this model. Each write and read is an event whose success is an input. That each packet moved successfully advances the 8-bit sequence counter by one is an assumption (`Moved`); a failed write or read is in the trace but leaves the counter as it was.
- The meaning of the 4-byte header placeholder belongs to the framing layer and is not modelled.
- `CalcPassword` is SHA-1 based and its source is not part of this model. It is an uninterpreted function of salt and password.
- `PutLengthEncodedInt` is only pinned for values below 251 (one byte). Its multi-byte forms are not modelled.
- Responses.OkRoundTrip: covers only counts below 251, because the multi-byte length encoding is not modelled.
- Responses.ErrRoundTrip: covers only five-byte states under CLIENT_PROTOCOL_41, because a reader cannot find where a state of another length ends.
- The values of ProtocolVersion, ServerVersion, DEFAULT_COLLATION_ID, the CLIENT_* bits, the error codes, the state table and the message templates are parameters, because the `mysql` package is not part of this model.
- Panic recovery in `Run` is reduced to "the dispatcher panicked and the deferred close still runs". The `recover()` call, `runtime.Stack` and the `fmt.Println` logging are Go runtime behaviour. The greeting's log line is left out too.
- ClientConn.Conclude: when the parser faults, the session keeps its old capability word and user, and the contract states that the session is unchanged. Go has already assigned `c.capability` (line 99), and `c.user` once its NUL is found (line 110), before it panics. No property depends on the session after a fault.
- ClientConn.Stored: for the same reason, a fault stores nothing in the session.
- A short payload is a fault here, wherever Go slices past the length of `data`. Go checks slices against capacity, not length, so `data[:4]` on a short payload with spare capacity would not panic. The model does not track capacity.
- The embedded `sync.Mutex` is not modelled; it has no call sites in this file.
- `baseConnId`, `stmtId`, `lastInsertId`, `affectedRows`, `collation` and `charset` are not modelled, because this file never changes them.
- The command dispatcher `DispatchMessage` is external. It is a function parameter of the session and payload that returns the session or panics, so it answers alike to alike inputs. A dispatcher whose answer to the same payload from the same session changes between rounds, for example after a backend failure, is not represented. Every `Run` lemma holds for all such functions, one round at a time.
- `pos += len(c.db) + 1` (line 140) uses the old `c.db`, but `pos` is never read afterwards. No property depends on it.
- `Run` is modelled on a finite script of read results, with the end of the script standing for a failed read. The Go loop is unbounded, so a connection that never fails a read, never closes and never panics is not modelled.

=== FILE: bytes.dfy ===
/**
 * Byte-level helpers the connection code takes from Go's standard library:
 * little-endian packing (`byte(x)`, `byte(x>>8)`, ... and
 * `binary.LittleEndian.Uint32`) and `bytes.IndexByte`.
 *
 * Go's `byte(v)` conversion truncates to the low eight bits; here that is an
 * explicit mask before narrowing the bit-vector.
 */
module Bytes {

  /** The four zero bytes every payload starts with: room the framing layer
      fills in with the 3-byte length and the sequence number. */
  const HeaderPlaceholder: seq<bv8> := [0, 0, 0, 0]

  /** `byte(x), byte(x>>8)` of a uint16. */
  function Le16(x: bv16): (r: seq<bv8>)
    ensures |r| == 2
  {
    [(x & 0xFF) as bv8, (x >> 8) as bv8]
  }

  /** `byte(x), byte(x>>8), byte(x>>16), byte(x>>24)` of a uint32. */
  function Le32(x: bv32): (r: seq<bv8>)
    ensures |r| == 4
  {
    [(x & 0xFF) as bv8, ((x >> 8) & 0xFF) as bv8, ((x >> 16) & 0xFF) as bv8, (x >> 24) as bv8]
  }

  /** The uint16 whose little-endian bytes are `b`. */
  function Uint16(b: seq<bv8>): (r: bv16)
    requires |b| == 2
    ensures Le16(r) == b
  {
    (b[0] as bv16) | ((b[1] as bv16) << 8)
  }

  /** `binary.LittleEndian.Uint32(b)`: the uint32 whose little-endian bytes are `b`. */
  function Uint32(b: seq<bv8>): (r: bv32)
    requires |b| == 4
    ensures Le32(r) == b
  {
    (b[0] as bv32) | ((b[1] as bv32) << 8) | ((b[2] as bv32) << 16) | ((b[3] as bv32) << 24)
  }

  /**
   * Go's `byte(n)` for a count that fits in a byte: the byte whose value
   * is `n`. It means exactly `n as bv8`; it is written as a successor count
   * only because the solver handles this form more predictably than the
   * conversion, and the recursion carries no meaning of its own.
   */
  function ByteOf(n: nat): (b: bv8)
    requires n < 256
    ensures b as nat == n
  {
    if n == 0 then 0
    else
      var p := ByteOf(n - 1);
      assert p < 255;
      p + 1
  }

  /** Packing a uint16 and reading it back gives the same value. */
  lemma Le16RoundTrip(x: bv16)
    ensures Uint16(Le16(x)) == x
  {
  }

  /** Packing a uint32 and reading it back gives the same value. */
  lemma Le32RoundTrip(x: bv32)
    ensures Uint32(Le32(x)) == x
  {
  }

  /**
   * `bytes.IndexByte(s, b)`: the index of the first occurrence of `b` in `s`,
   * or -1 when `b` does not occur.
   */
  function IndexByte(s: seq<bv8>, b: bv8): (r: int)
    ensures -1 <= r < |s|
    ensures r == -1 <==> b !in s
    ensures r >= 0 ==> s[r] == b && b !in s[..r]
  {
    if |s| == 0 then -1
    else if s[0] == b then 0
    else
      var j := IndexByte(s[1..], b);
      if j < 0 then -1
      else
        assert s[1..][..j] == s[1..j + 1];
        assert s[..j + 1] == [s[0]] + s[1..j + 1];
        j + 1
  }

  /** The first `b` in `a + [b] + c` is the one right after `a` when `a` holds no `b`. */
  lemma IndexByteAfter(a: seq<bv8>, b: bv8, c: seq<bv8>)
    requires b !in a
    ensures IndexByte(a + [b] + c, b) == |a|
  {
    var s := a + [b] + c;
    assert s[..|a|] == a;
    assert s[|a|] == b;
  }

  /** A slice of a slice is the slice at the summed offsets. */
  lemma SubSlice<T>(g: seq<T>, a: nat, b: nat, i: nat, j: nat)
    requires a <= b <= |g| && i <= j <= b - a
    ensures g[a..b][i..j] == g[a + i..a + j]
  {
    var x, y := g[a..b][i..j], g[a + i..a + j];
    assert |x| == |y|;
    forall k | 0 <= k < |x|
      ensures x[k] == y[k]
    {
      assert x[k] == g[a..b][i + k] == g[a + i + k];
    }
  }
}

=== FILE: client_conn.dfy ===
/**
 * The per-connection session (`ClientConn`): the handshake that opens it,
 * the command loop that serves it and the close that ends it.
 *
 * The transport is abstract. Each write or read the code attempts appears as
 * an `Io` event, whether or not it succeeded; its success or failure is given
 * up front. The command dispatcher is a function parameter of the session and
 * payload that may change the session or panic. Each packet the framing layer
 * moves successfully advances the sequence counter by one (a uint8, so it
 * wraps at 256).
 */
module ClientConn {
  import opened Wrappers
  import opened Bytes
  import opened Mysql
  import opened Responses
  import opened InitialHandshake
  import opened HandshakeResponse

  /** The session fields the core reads or writes. */
  datatype Session = Session(
    connectionId: bv32,
    capability: bv32,
    status: bv16,
    user: seq<bv8>,
    db: seq<bv8>,
    salt: seq<bv8>,
    /** `c.c.RemoteAddr().String()` */
    remoteAddr: seq<bv8>,
    closed: bool,
    /** `c.pkg.Sequence` */
    sequence: bv8,
    /** how many times the transport's `Close` has been called */
    transportCloses: nat)

  /** The sequence counter after the framing layer successfully moved one packet. */
  function Moved(s: Session): Session {
    s.(sequence := s.sequence + 1)
  }

  /**
   * `Close`: the first call closes the transport and marks the session
   * closed; later calls change nothing.
   */
  function Close(s: Session): (r: Session)
    ensures r.closed
    ensures s.closed ==> r == s
    ensures !s.closed ==> r.transportCloses == s.transportCloses + 1 && r.(transportCloses := s.transportCloses) == s.(closed := true)
  {
    if s.closed then s
    else s.(closed := true, transportCloses := s.transportCloses + 1)
  }

  /** Closing twice is closing once, and a closed session never reopens. */
  lemma CloseIdempotent(s: Session)
    ensures Close(Close(s)) == Close(s)
    ensures Close(s).transportCloses <= s.transportCloses + 1
    ensures s.closed ==> Close(s).transportCloses == s.transportCloses
  {
  }

  /** A transport call the code made: a packet write or a packet read, whether or not it succeeded. */
  datatype Io = Write(payload: seq<bv8>) | Read

  /** What the transport does with a write. */
  datatype WriteResult = Written | WriteFailed(err: Error)

  /** What the transport returns for a read. */
  datatype ReadResult = Packet(data: seq<bv8>) | ReadFailed(err: Error)

  /** The transport's behaviour during one handshake: the greeting write, the response read, the OK write. */
  datatype HandshakeIo = HandshakeIo(greeting: WriteResult, response: ReadResult, ok: WriteResult)

  /** How a call returned: nil, with an error, or by panicking on a malformed payload. */
  datatype Status = Done | Failed(err: Error) | Panicked(reason: Malformed)

  /** Session afterwards, the transport calls made in order (failed ones included), and how the call returned. */
  datatype HandshakeRun = HandshakeRun(session: Session, trace: seq<Io>, status: Status)

  /** The session after `readHandshakeResponse` stored what it parsed. */
  function Stored(s: Session, outcome: Outcome): Session {
    match outcome
    case Accepted(capability, user, db) =>
      s.(capability := capability, user := user, db := if db.Some? then db.value else s.db)
    case Denied(capability, user, _) => s.(capability := capability, user := user)
    case Fault(_) => s
  }

  /**
   * What `Handshake` does once the response has been judged: store the
   * outcome in the session, and only for an accepted client attempt the OK
   * write, resetting the sequence counter when it succeeds. The trace holds
   * only the write attempted after the response was read.
   */
  function Conclude(k: Constants, s: Session, outcome: Outcome, okWrite: WriteResult): (r: HandshakeRun)
    ensures |r.trace| <= 1
    ensures |r.trace| == 1 <==> outcome.Accepted?
    ensures outcome.Accepted? ==>
              && r.trace[0] == Write(OkPayload(k, Protocol41(k, outcome.capability), s.status, None))
              && r.session.user == outcome.user && r.session.capability == outcome.capability
    ensures r.status.Done? <==> outcome.Accepted? && okWrite.Written?
    ensures r.status.Done? ==> r.session.sequence == 0
    ensures !r.status.Done? ==> r.session.sequence == s.sequence
    ensures outcome.Accepted? ==> r.session.db == (if outcome.db.Some? then outcome.db.value else s.db)
    ensures !outcome.Accepted? ==> r.session.db == s.db
    ensures outcome.Denied? ==> r.session.user == outcome.user && r.session.capability == outcome.capability
    ensures outcome.Fault? ==> r.session == s
    ensures outcome.Accepted? && okWrite.WriteFailed? ==> r.status == Failed(okWrite.err)
    ensures outcome.Denied? ==> r.status == Failed(outcome.err)
    ensures outcome.Fault? ==> r.status == Panicked(outcome.reason)
    ensures r.session.salt == s.salt && r.session.connectionId == s.connectionId
    ensures r.session.closed == s.closed && r.session.transportCloses == s.transportCloses
  {
    var s1 := Stored(s, outcome);
    match outcome
    case Fault(why) => HandshakeRun(s1, [], Panicked(why))
    case Denied(_, _, e) => HandshakeRun(s1, [], Failed(e))
    case Accepted(_, _, _) =>
      var ok := OkPayload(k, Protocol41(k, s1.capability), s1.status, None);
      match okWrite
      case WriteFailed(e) => HandshakeRun(s1, [Write(ok)], Failed(e))
      case Written => HandshakeRun(Moved(s1).(sequence := 0), [Write(ok)], Done)
  }

  /**
   * The part of `Handshake` after the greeting went out: read the client's
   * response, judge it and conclude. The trace starts with the read.
   */
  function AfterGreeting(k: Constants, s: Session, response: ReadResult, okWrite: WriteResult): (r: HandshakeRun)
    ensures 1 <= |r.trace| <= 2 && r.trace[0] == Read
    ensures response.ReadFailed? ==> r.status == Failed(response.err) && |r.trace| == 1
    ensures r.status.Done? ==> r.session.sequence == 0
    ensures r.session.salt == s.salt && r.session.connectionId == s.connectionId
    ensures r.session.closed == s.closed && r.session.transportCloses == s.transportCloses
  {
    match response
    case ReadFailed(e) => HandshakeRun(s, [Read], Failed(e))
    case Packet(data) =>
      var s1 := Moved(s);
      var r := Conclude(k, s1, ReadResponse(k, s1.salt, s1.remoteAddr, data), okWrite);
      r.(trace := [Read] + r.trace)
  }

  /**
   * `Handshake`: send the greeting, read and judge the client's response,
   * and on success send one OK packet and reset the sequence counter.
   */
  function Handshake(k: Constants, s: Session, io: HandshakeIo): (r: HandshakeRun)
    requires |s.salt| >= 8
    ensures 1 <= |r.trace| <= 3 && r.trace[0] == Write(Greeting(k, s.connectionId, s.salt, s.status))
    ensures io.greeting.WriteFailed? ==> r == HandshakeRun(s, [r.trace[0]], Failed(io.greeting.err))
    ensures |r.trace| >= 2 ==> r.trace[1] == Read
    ensures io.greeting.Written? && io.response.ReadFailed? ==> r.status == Failed(io.response.err) && |r.trace| == 2
    ensures r.status.Done? ==> r.session.sequence == 0
    ensures r.session.salt == s.salt && r.session.connectionId == s.connectionId
    ensures r.session.closed == s.closed && r.session.transportCloses == s.transportCloses
  {
    var greeting := Greeting(k, s.connectionId, s.salt, s.status);
    match io.greeting
    case WriteFailed(e) => HandshakeRun(s, [Write(greeting)], Failed(e))
    case Written =>
      var r := AfterGreeting(k, Moved(s), io.response, io.ok);
      r.(trace := [Write(greeting)] + r.trace)
  }

  /**
   * After a delivered greeting and response, the handshake succeeds exactly
   * when the response is accepted and the OK write succeeds; the OK write
   * is attempted exactly for an accepted response, carries the session status
   * and leaves the user "root"; a denied response fails with its
   * access-denied error and a malformed one ends in a fault.
   */
  lemma HandshakeOutcome(k: Constants, s: Session, io: HandshakeIo)
    requires |s.salt| >= 8
    requires io.greeting.Written? && io.response.Packet?
    ensures var outcome := ReadResponse(k, s.salt, s.remoteAddr, io.response.data);
            var r := Handshake(k, s, io);
            && (r.status.Done? <==> outcome.Accepted? && io.ok.Written?)
            && (|r.trace| == 3 <==> outcome.Accepted?)
            && (|r.trace| == 3 ==>
                  && r.trace[2] == Write(OkPayload(k, Protocol41(k, r.session.capability), s.status, None))
                  && r.session.user == ROOT)
            && (outcome.Denied? ==> r.status == Failed(outcome.err))
            && (outcome.Fault? ==> r.status == Panicked(outcome.reason))
  {
  }

  /**
   * A client that answers the greeting with a well-formed response naming
   * "root" with the scramble of this connection's salt and "123": when the
   * OK write succeeds, the handshake completes having written exactly the
   * greeting and then the OK packet, and the session takes the client's
   * capability word. The database becomes empty when the client did not set
   * CLIENT_CONNECT_WITH_DB, the name it sent when it did, and stays as it
   * was when the bit is set but no name follows.
   */
  lemma LoginAccepted(k: Constants, s: Session, okWrite: WriteResult,
                      capability: bv32, maxPacket: bv32, charset: bv8, user: seq<bv8>, auth: seq<bv8>,
                      db: Option<seq<bv8>>)
    requires |s.salt| >= 8
    requires 0 !in user && |auth| < 256
    requires db.Some? ==> 0 !in db.value
    requires Authentic(k, s.salt, user, auth) && okWrite.Written?
    ensures var data := EncodeResponse(capability, maxPacket, charset, user, auth, db);
            var r := Handshake(k, s, HandshakeIo(Written, Packet(data), okWrite));
            && r.status == Done && r.session.sequence == 0
            && r.trace == [Write(Greeting(k, s.connectionId, s.salt, s.status)), Read,
                           Write(OkPayload(k, Protocol41(k, capability), s.status, None))]
            && r.session.user == ROOT && r.session.capability == capability
            && r.session.db == (if !HasFlag(capability, k.clientConnectWithDb) then []
                                else if db.Some? then db.value
                                else s.db)
  {
    var data := EncodeResponse(capability, maxPacket, charset, user, auth, db);
    ResponseRoundTrip(k, s.salt, s.remoteAddr, capability, maxPacket, charset, user, auth, db);
    var io := HandshakeIo(Written, Packet(data), okWrite);
    HandshakeOutcome(k, s, io);
    var r := Handshake(k, s, io);
    assert r.session.capability == capability;
  }

  /**
   * A client whose response names another user or carries a wrong scramble
   * is refused with the access-denied error, and no OK packet is written.
   * The session has already taken the client's user and capability word,
   * and its database is untouched.
   */
  lemma LoginDenied(k: Constants, s: Session, okWrite: WriteResult,
                    capability: bv32, maxPacket: bv32, charset: bv8, user: seq<bv8>, auth: seq<bv8>,
                    db: Option<seq<bv8>>)
    requires |s.salt| >= 8
    requires 0 !in user && |auth| < 256
    requires db.Some? ==> 0 !in db.value
    requires !Authentic(k, s.salt, user, auth)
    ensures var data := EncodeResponse(capability, maxPacket, charset, user, auth, db);
            var r := Handshake(k, s, HandshakeIo(Written, Packet(data), okWrite));
            && r.status == Failed(AccessDenied(k, user, s.remoteAddr))
            && |r.trace| == 2
            && r.session.user == user && r.session.capability == capability
            && r.session.db == s.db
  {
    ResponseRoundTrip(k, s.salt, s.remoteAddr, capability, maxPacket, charset, user, auth, db);
    HandshakeOutcome(k, s, HandshakeIo(Written, Packet(EncodeResponse(capability, maxPacket, charset, user, auth, db)), okWrite));
  }

  /** How `DispatchMessage` ended: it returned, or it panicked, leaving the session as it was then. */
  datatype Dispatched = Returned(session: Session) | Crashed(session: Session)

  /** One thing the command loop did, in order. */
  datatype Step =
    | Received(sequence: bv8, payload: seq<bv8>)  // ReadPacket returned a payload; the counter when it was called
    | ReadError                                   // ReadPacket failed
    | Dispatched(closed: bool)                    // DispatchMessage returned; the closed flag afterwards
    | Recovered                                   // DispatchMessage panicked; the deferred handler caught it
    | Reset                                       // Sequence = 0
    | DeferredClose                               // the deferred c.Close()

  /** Why the loop ended. */
  datatype Exit = ReadEnded | SessionClosed | DispatchPanicked

  /** The step that ends the loop for each exit path. */
  function Ending(exit: Exit): Step {
    match exit
    case ReadEnded => ReadError
    case SessionClosed => Dispatched(true)
    case DispatchPanicked => Recovered
  }

  /** Final session, everything the loop did, and why it stopped. */
  datatype RunResult = RunResult(session: Session, trace: seq<Step>, exit: Exit)

  /** The deferred handler: close, whatever the exit path. */
  function Finish(s: Session, steps: seq<Step>, exit: Exit): RunResult {
    RunResult(Close(s), steps + [DeferredClose], exit)
  }

  /** `steps` done before the rest of the loop. */
  function After(steps: seq<Step>, rest: RunResult): RunResult {
    RunResult(rest.session, steps + rest.trace, rest.exit)
  }

  /** One round of the loop: it stops with an exit, or continues from a session. */
  datatype Round =
    | Stopped(session: Session, steps: seq<Step>, exit: Exit)
    | Continued(session: Session, steps: seq<Step>)

  /**
   * One trip round the loop after `ReadPacket` returned `data`: dispatch
   * it; a panic or a closed session stops the loop, otherwise the counter
   * is reset for the next read.
   */
  function RoundOf(s: Session, data: seq<bv8>, dispatch: (Session, seq<bv8>) -> Dispatched): (r: Round)
    ensures r.Continued? <==> dispatch(Moved(s), data).Returned? && !dispatch(Moved(s), data).session.closed
    ensures r.Continued? ==>
              && r.steps == [Received(s.sequence, data), Dispatched(false), Reset]
              && r.session == dispatch(Moved(s), data).session.(sequence := 0)
    ensures r.Stopped? ==>
              && r.steps == [Received(s.sequence, data), Ending(r.exit)]
              && r.session == dispatch(Moved(s), data).session
              && r.exit != ReadEnded
              && (r.exit == DispatchPanicked <==> dispatch(Moved(s), data).Crashed?)
  {
    var received := Received(s.sequence, data);
    match dispatch(Moved(s), data)
    case Crashed(s1) => Stopped(s1, [received, Recovered], DispatchPanicked)
    case Returned(s1) =>
      if s1.closed then Stopped(s1, [received, Dispatched(true)], SessionClosed)
      else Continued(s1.(sequence := 0), [received, Dispatched(false), Reset])
  }

  /**
   * `Run` on a session whose transport will return the reads in `script`
   * (running out of script is a read error), with `dispatch` standing for
   * `DispatchMessage`. Whatever the exit path, the loop's last two steps are
   * the step that ended it and the deferred close, and the session ends
   * closed.
   */
  function RunSpec(s: Session, script: seq<ReadResult>, dispatch: (Session, seq<bv8>) -> Dispatched): (r: RunResult)
    ensures r.session.closed
    ensures |r.trace| >= 2 && r.trace[|r.trace| - 1] == DeferredClose && r.trace[|r.trace| - 2] == Ending(r.exit)
    ensures r.trace[0].Received? || r.trace[0] == ReadError
    decreases |script|
  {
    if |script| == 0 || script[0].ReadFailed? then Finish(s, [ReadError], ReadEnded)
    else
      match RoundOf(s, script[0].data, dispatch)
      case Stopped(s1, steps, exit) => Finish(s1, steps, exit)
      case Continued(s1, steps) => After(steps, RunSpec(s1, script[1..], dispatch))
  }

  /**
   * `Run` as the loop it is: read, dispatch, stop on a read error, a
   * panic or a closed session, otherwise reset the counter and go round.
   * It does exactly what the recursive description does.
   */
  method Run(s: Session, script: seq<ReadResult>, dispatch: (Session, seq<bv8>) -> Dispatched) returns (r: RunResult)
    ensures r == RunSpec(s, script, dispatch)
  {
    var cur := s;
    var trace: seq<Step> := [];
    var i := 0;
    while true
      invariant 0 <= i <= |script|
      invariant RunSpec(s, script, dispatch) == After(trace, RunSpec(cur, script[i..], dispatch))
      decreases |script| - i
    {
      if i == |script| || script[i].ReadFailed? {
        AfterFinish(trace, cur, [ReadError], ReadEnded);
        return Finish(cur, trace + [ReadError], ReadEnded);
      }
      var round := RoundOf(cur, script[i].data, dispatch);
      if round.Stopped? {
        AfterFinish(trace, round.session, round.steps, round.exit);
        return Finish(round.session, trace + round.steps, round.exit);
      }
      assert script[i..][1..] == script[i + 1..];
      AfterAfter(trace, round.steps, RunSpec(round.session, script[i + 1..], dispatch));
      trace := trace + round.steps;
      cur := round.session;
      i := i + 1;
    }
  }

  /** Steps before a finished loop join the steps it finished with. */
  lemma AfterFinish(a: seq<Step>, s: Session, steps: seq<Step>, exit: Exit)
    ensures After(a, Finish(s, steps, exit)) == Finish(s, a + steps, exit)
  {
    assert a + (steps + [DeferredClose]) == (a + steps) + [DeferredClose];
  }

  /** Steps before steps before the rest are their concatenation before the rest. */
  lemma AfterAfter(a: seq<Step>, b: seq<Step>, rest: RunResult)
    ensures After(a, After(b, rest)) == After(a + b, rest)
  {
    assert a + (b + rest.trace) == (a + b) + rest.trace;
  }

  /** The `Received` steps of a trace, in order. */
  function Receipts(t: seq<Step>): (rs: seq<Step>)
    ensures forall j :: 0 <= j < |rs| ==> rs[j].Received?
    ensures |rs| <= |t|
  {
    if |t| == 0 then []
    else (if t[0].Received? then [t[0]] else []) + Receipts(t[1..])
  }

  /** How many reads in the script succeed before the first failure. */
  function LeadingPackets(script: seq<ReadResult>): (n: nat)
    ensures n <= |script|
    ensures forall j :: 0 <= j < n ==> script[j].Packet?
    ensures n < |script| ==> script[n].ReadFailed?
  {
    if |script| == 0 || script[0].ReadFailed? then 0 else 1 + LeadingPackets(script[1..])
  }

  /** The deferred close, if any, is the last step. */
  ghost predicate ClosesLast(t: seq<Step>) {
    forall j :: 0 <= j < |t| - 1 ==> t[j] != DeferredClose
  }

  /** A counter reset comes right after a dispatch that left the session open, and right before the next read. */
  ghost predicate ResetsBetween(t: seq<Step>) {
    forall j :: 0 <= j < |t| && t[j] == Reset ==>
      && 0 < j && t[j - 1] == Dispatched(false)
      && j + 1 < |t| && (t[j + 1].Received? || t[j + 1] == ReadError)
  }

  /** Steps without a deferred close, put before a trace, keep the close last. */
  lemma ClosesLastPrefix(p: seq<Step>, t: seq<Step>)
    requires DeferredClose !in p && ClosesLast(t)
    ensures ClosesLast(p + t)
  {
    forall j | 0 <= j < |p + t| - 1
      ensures (p + t)[j] != DeferredClose
    {
      if j >= |p| {
        assert (p + t)[j] == t[j - |p|];
      }
    }
  }

  /** A read-dispatch-reset round put before a trace that starts with a read keeps resets between commands. */
  lemma ResetsBetweenRound(x: Step, t: seq<Step>)
    requires x.Received? && |t| > 0 && (t[0].Received? || t[0] == ReadError)
    requires ResetsBetween(t)
    ensures ResetsBetween([x, Dispatched(false), Reset] + t)
  {
    var u := [x, Dispatched(false), Reset] + t;
    forall j | 0 <= j < |u| && u[j] == Reset
      ensures 0 < j && u[j - 1] == Dispatched(false) && j + 1 < |u| && (u[j + 1].Received? || u[j + 1] == ReadError)
    {
      if j > 3 {
        assert u[j] == t[j - 3] && u[j - 1] == t[j - 4];
        if j + 1 < |u| {
          assert u[j + 1] == t[j - 2];
        }
      }
    }
  }

  /** The deferred close happens once, as the loop's very last step. */
  lemma {:induction false} CloseIsLast(s: Session, script: seq<ReadResult>, dispatch: (Session, seq<bv8>) -> Dispatched)
    ensures ClosesLast(RunSpec(s, script, dispatch).trace)
    decreases |script|
  {
    if |script| > 0 && script[0].Packet? {
      match RoundOf(s, script[0].data, dispatch)
      case Stopped(_, _, _) =>
      case Continued(s1, steps) =>
        CloseIsLast(s1, script[1..], dispatch);
        ClosesLastPrefix(steps, RunSpec(s1, script[1..], dispatch).trace);
    }
  }

  /**
   * The counter is reset only after a dispatch that left the session open,
   * and every reset is followed by the next read.
   */
  lemma {:induction false} ResetBetweenCommands(s: Session, script: seq<ReadResult>, dispatch: (Session, seq<bv8>) -> Dispatched)
    ensures ResetsBetween(RunSpec(s, script, dispatch).trace)
    decreases |script|
  {
    if |script| > 0 && script[0].Packet? {
      match RoundOf(s, script[0].data, dispatch)
      case Stopped(_, _, _) =>
      case Continued(s1, steps) =>
        ResetBetweenCommands(s1, script[1..], dispatch);
        ResetsBetweenRound(steps[0], RunSpec(s1, script[1..], dispatch).trace);
    }
  }

  /** `Receipts` of a trace that starts with one given step. */
  lemma ReceiptsCons(x: Step, t: seq<Step>)
    ensures Receipts([x] + t) == (if x.Received? then [x] else []) + Receipts(t)
  {
    assert ([x] + t)[1..] == t;
  }

  /** A read-dispatch-reset round contributes its one `Received` step. */
  lemma ReceiptsRound(x: Step, t: seq<Step>)
    requires x.Received?
    ensures Receipts([x, Dispatched(false), Reset] + t) == [x] + Receipts(t)
  {
    assert [x, Dispatched(false), Reset] + t == [x] + ([Dispatched(false)] + ([Reset] + t));
    ReceiptsCons(Reset, t);
    ReceiptsCons(Dispatched(false), [Reset] + t);
    ReceiptsCons(x, [Dispatched(false)] + ([Reset] + t));
  }

  /** A loop that ends on a failed read has read nothing more. */
  lemma ReceiptsEnd(x: Step)
    requires !x.Received?
    ensures Receipts([x] + [DeferredClose]) == []
  {
    ReceiptsCons(x, [DeferredClose]);
    ReceiptsCons(DeferredClose, []);
    assert [DeferredClose] + [] == [DeferredClose];
  }

  /** A loop that ends right after a read has that read as its last receipt. */
  lemma ReceiptsLast(x: Step, y: Step)
    requires x.Received? && !y.Received?
    ensures Receipts([x, y] + [DeferredClose]) == [x]
  {
    assert [x, y] + [DeferredClose] == [x] + ([y] + [DeferredClose]);
    ReceiptsEnd(y);
    ReceiptsCons(x, [y] + [DeferredClose]);
  }

  /**
   * `rs` are reads of the script's leading packets, in order: the first at
   * counter `first`, every later one at counter zero.
   */
  ghost predicate ReadsOf(rs: seq<Step>, script: seq<ReadResult>, first: bv8) {
    && |rs| <= LeadingPackets(script)
    && (forall j :: 0 <= j < |rs| ==> rs[j].Received? && script[j] == Packet(rs[j].payload))
    && (|rs| > 0 ==> rs[0].sequence == first)
    && (forall j :: 0 < j < |rs| ==> rs[j].sequence == 0)
  }

  /** A read of the script's first packet, then reads of the rest at counter zero, are reads of the script. */
  lemma ReadsOfRound(x: Step, rs: seq<Step>, script: seq<ReadResult>)
    requires x.Received? && |script| > 0 && script[0] == Packet(x.payload)
    requires ReadsOf(rs, script[1..], 0)
    ensures ReadsOf([x] + rs, script, x.sequence)
  {
    var u := [x] + rs;
    forall j | 0 < j < |u|
      ensures u[j].Received? && script[j] == Packet(u[j].payload) && u[j].sequence == 0
    {
      assert u[j] == rs[j - 1] && script[j] == script[1..][j - 1];
    }
  }

  /** A read of the script's first packet is a read of the script. */
  lemma ReadsOfOne(x: Step, script: seq<ReadResult>)
    requires x.Received? && |script| > 0 && script[0] == Packet(x.payload)
    ensures ReadsOf([x], script, x.sequence)
  {
  }

  /**
   * The loop hands the script's packets to the dispatcher in order, never
   * past the first failed read; the first read happens at the session's
   * counter and every later one at the counter reset to zero.
   */
  lemma {:induction false} ReadsFollowScript(s: Session, script: seq<ReadResult>, dispatch: (Session, seq<bv8>) -> Dispatched)
    ensures ReadsOf(Receipts(RunSpec(s, script, dispatch).trace), script, s.sequence)
    decreases |script|
  {
    if |script| == 0 || script[0].ReadFailed? {
      ReceiptsEnd(ReadError);
    } else {
      var received := Received(s.sequence, script[0].data);
      match RoundOf(s, script[0].data, dispatch)
      case Stopped(_, steps, exit) =>
        ReceiptsLast(received, Ending(exit));
        ReadsOfOne(received, script);
      case Continued(s1, steps) =>
        var rest := RunSpec(s1, script[1..], dispatch);
        ReadsFollowScript(s1, script[1..], dispatch);
        ReceiptsRound(received, rest.trace);
        ReadsOfRound(received, Receipts(rest.trace), script);
    }
  }

  /**
   * With a dispatcher that never panics and never closes the session, the
   * loop runs until the first failed read, handing over every packet
   * before it.
   */
  lemma {:induction false} RunsUntilReadFails(s: Session, script: seq<ReadResult>, dispatch: (Session, seq<bv8>) -> Dispatched)
    requires forall x, data :: dispatch(x, data).Returned? && !dispatch(x, data).session.closed
    ensures var r := RunSpec(s, script, dispatch);
            r.exit == ReadEnded && |Receipts(r.trace)| == LeadingPackets(script)
    decreases |script|
  {
    if |script| == 0 || script[0].ReadFailed? {
      ReceiptsEnd(ReadError);
    } else {
      var round := RoundOf(s, script[0].data, dispatch);
      var rest := RunSpec(round.session, script[1..], dispatch);
      RunsUntilReadFails(round.session, script[1..], dispatch);
      ReceiptsRound(Received(s.sequence, script[0].data), rest.trace);
    }
  }
  /**
   * The recorded exit is what happened: the loop ends on a read error only
   * after handing over every packet before the script's first failed read,
   * and it ends by a panic or a closed session only after at least one packet
   * and never past that failed read.
   */
  lemma {:induction false} ExitMatchesScript(s: Session, script: seq<ReadResult>, dispatch: (Session, seq<bv8>) -> Dispatched)
    ensures var r := RunSpec(s, script, dispatch);
            && (r.exit == ReadEnded ==> |Receipts(r.trace)| == LeadingPackets(script))
            && (r.exit != ReadEnded ==> 1 <= |Receipts(r.trace)| <= LeadingPackets(script))
    decreases |script|
  {
    if |script| == 0 || script[0].ReadFailed? {
      ReceiptsEnd(ReadError);
    } else {
      var received := Received(s.sequence, script[0].data);
      match RoundOf(s, script[0].data, dispatch)
      case Stopped(_, steps, exit) =>
        ReceiptsLast(received, Ending(exit));
      case Continued(s1, steps) =>
        var rest := RunSpec(s1, script[1..], dispatch);
        ExitMatchesScript(s1, script[1..], dispatch);
        ReceiptsRound(received, rest.trace);
    }
  }
}

=== FILE: greeting.dfy ===
/**
 * The Protocol::HandshakeV10 greeting the server sends first
 * (`writeInitialHandshake`), and a client-side reader of the same layout.
 *
 * The layout is stated over the fields' wire bytes (`Wire`); `Greeting`
 * fills those bytes from the connection's id, salt and status and the
 * server constants.
 */
module InitialHandshake {
  import opened Wrappers
  import opened Bytes
  import opened Mysql

  /** Length byte the greeting always carries before the reserved bytes. */
  const AUTH_DATA_FILLER: bv8 := 0x15

  const TenZeros: seq<bv8> := [0, 0, 0, 0, 0, 0, 0, 0, 0, 0]

  /** The greeting's fields as the bytes that go on the wire. */
  datatype Wire = Wire(
    protocolVersion: bv8,
    serverVersion: seq<bv8>,
    connectionId: seq<bv8>,
    salt: seq<bv8>,
    capability: seq<bv8>,
    collation: bv8,
    status: seq<bv8>)

  /** Fixed-width fields have their widths, and the salt covers its first part. */
  predicate Sized(w: Wire) {
    |w.connectionId| == 4 && |w.salt| >= 8 && |w.capability| == 4 && |w.status| == 2
  }

  /** The wire bytes of this connection's greeting fields. */
  function WireOf(k: Constants, connectionId: bv32, salt: seq<bv8>, status: bv16): (w: Wire)
    requires |salt| >= 8
    ensures Sized(w)
  {
    Wire(k.protocolVersion, k.serverVersion, Le32(connectionId), salt,
         Le32(DefaultCapability(k)), k.defaultCollationId, Le16(status))
  }

  /**
   * The payload `writeInitialHandshake` writes for a connection with the
   * given id, salt and status. The slice `c.salt[8:]` (server/connection.go:82)
   * needs at least eight bytes.
   */
  function Greeting(k: Constants, connectionId: bv32, salt: seq<bv8>, status: bv16): (g: seq<bv8>)
    requires |salt| >= 8
  {
    Encode(WireOf(k, connectionId, salt, status))
  }

  /** The greeting built from wire bytes: version part, id part, capability part, second salt part. */
  function Encode(w: Wire): seq<bv8>
    requires Sized(w)
  {
    VersionPart(w) + IdPart(w) + CapabilityPart(w) + (w.salt[8..] + [0])
  }

  /** Placeholder, protocol version and NUL-terminated server version. */
  function VersionPart(w: Wire): seq<bv8> {
    HeaderPlaceholder + [w.protocolVersion] + w.serverVersion + [0]
  }

  /** Connection id, first eight salt bytes and a filler. */
  function IdPart(w: Wire): seq<bv8>
    requires Sized(w)
  {
    w.connectionId + w.salt[..8] + [0]
  }

  /** Capability halves around collation and status, then the fixed fillers. */
  function CapabilityPart(w: Wire): seq<bv8>
    requires Sized(w)
  {
    w.capability[..2] + [w.collation] + w.status + w.capability[2..] + [AUTH_DATA_FILLER] + TenZeros
  }

  /**
   * Byte layout of a HandshakeV10 greeting: where each field sits, given the
   * length of the server version.
   */
  ghost predicate LaidOut(g: seq<bv8>, w: Wire)
    requires Sized(w)
  {
    var n := |w.serverVersion|;
    var o := 6 + n;
    && |g| == 30 + n + |w.salt|
    && g[..4] == HeaderPlaceholder
    && g[4] == w.protocolVersion
    && g[5..5 + n] == w.serverVersion && g[5 + n] == 0
    && g[o..o + 4] == w.connectionId
    && g[o + 4..o + 12] == w.salt[..8] && g[o + 12] == 0
    && g[o + 13..o + 15] == w.capability[..2]
    && g[o + 15] == w.collation
    && g[o + 16..o + 18] == w.status
    && g[o + 18..o + 20] == w.capability[2..]
    && g[o + 20] == AUTH_DATA_FILLER
    && g[o + 21..o + 31] == TenZeros
    && g[o + 31..|g| - 1] == w.salt[8..] && g[|g| - 1] == 0
  }

  /** The encoded greeting has the HandshakeV10 layout. */
  lemma EncodeLayout(w: Wire)
    requires Sized(w)
    ensures LaidOut(Encode(w), w)
  {
    var g := Encode(w);
    var o := 6 + |w.serverVersion|;
    assert g[..o] == VersionPart(w);
    assert g[o..o + 13] == IdPart(w);
    assert g[o + 13..o + 31] == CapabilityPart(w);
    assert g[o + 31..] == w.salt[8..] + [0];
    VersionAt(g, w);
    IdAt(g, w, o);
    CapabilityAt(g, w, o + 13);
    assert g[o + 31..|g| - 1] == g[o + 31..][..|g| - 1 - (o + 31)];
  }

  /** A payload that starts with the version part has the header, version and NUL where the layout puts them. */
  lemma VersionAt(g: seq<bv8>, w: Wire)
    requires |g| >= 6 + |w.serverVersion| && g[..6 + |w.serverVersion|] == VersionPart(w)
    ensures var n := |w.serverVersion|;
            g[..4] == HeaderPlaceholder && g[4] == w.protocolVersion && g[5..5 + n] == w.serverVersion && g[5 + n] == 0
  {
    var n := |w.serverVersion|;
    assert g[..4] == VersionPart(w)[..4];
    assert g[5..5 + n] == VersionPart(w)[5..5 + n];
  }

  /** The id part at offset `o` gives the connection id, the first salt part and a zero. */
  lemma IdAt(g: seq<bv8>, w: Wire, o: nat)
    requires Sized(w) && |g| >= o + 13 && g[o..o + 13] == IdPart(w)
    ensures g[o..o + 4] == w.connectionId && g[o + 4..o + 12] == w.salt[..8] && g[o + 12] == 0
  {
    SubSlice(g, o, o + 13, 0, 4);
    SubSlice(g, o, o + 13, 4, 12);
    assert g[o + 12] == g[o..o + 13][12];
  }

  /** The capability part at offset `c` gives the split capability, the collation, the status and the fillers. */
  lemma CapabilityAt(g: seq<bv8>, w: Wire, c: nat)
    requires Sized(w) && |g| >= c + 18 && g[c..c + 18] == CapabilityPart(w)
    ensures && g[c..c + 2] == w.capability[..2] && g[c + 2] == w.collation
            && g[c + 3..c + 5] == w.status && g[c + 5..c + 7] == w.capability[2..]
            && g[c + 7] == AUTH_DATA_FILLER && g[c + 8..c + 18] == TenZeros
  {
    SubSlice(g, c, c + 18, 0, 2);
    SubSlice(g, c, c + 18, 3, 5);
    SubSlice(g, c, c + 18, 5, 7);
    SubSlice(g, c, c + 18, 8, 18);
    assert g[c + 2] == g[c..c + 18][2] && g[c + 7] == g[c..c + 18][7];
  }

  /**
   * The greeting carries, in order after the 4-byte header: protocol
   * version, NUL-terminated server version, little-endian connection id,
   * first eight salt bytes, a zero, the low capability half, the collation,
   * the little-endian status, the high capability half, 0x15, ten zeros, the
   * rest of the salt and a final zero.
   */
  lemma GreetingLayout(k: Constants, connectionId: bv32, salt: seq<bv8>, status: bv16)
    requires |salt| >= 8
    ensures LaidOut(Greeting(k, connectionId, salt, status), WireOf(k, connectionId, salt, status))
  {
    EncodeLayout(WireOf(k, connectionId, salt, status));
  }

  /**
   * Client-side reader of a greeting body (the payload after the 4-byte
   * header), giving the fields' wire bytes: the server version runs to the
   * first NUL, the fixed fields follow, and the second salt part runs to the
   * final NUL. Fillers must hold their fixed values.
   */
  function ParseWire(b: seq<bv8>): Option<Wire> {
    if |b| == 0 then None
    else
      var v := IndexByte(b[1..], 0);
      if v < 0 then None
      else
        var o := 2 + v;
        if |b| < o + 32 then None
        else if b[o + 12] != 0 || b[o + 20] != AUTH_DATA_FILLER || b[o + 21..o + 31] != TenZeros || b[|b| - 1] != 0 then None
        else Some(Wire(
          b[0],
          b[1..1 + v],
          b[o..o + 4],
          b[o + 4..o + 12] + b[o + 31..|b| - 1],
          b[o + 13..o + 15] + b[o + 18..o + 20],
          b[o + 15],
          b[o + 16..o + 18]))
  }

  /** The fields a client takes from a greeting. */
  datatype GreetingFields = GreetingFields(
    protocolVersion: bv8,
    serverVersion: seq<bv8>,
    connectionId: bv32,
    salt: seq<bv8>,
    capability: bv32,
    collation: bv8,
    status: bv16)

  /** Client-side reader of a greeting body, decoding the little-endian numbers. */
  function ParseGreeting(b: seq<bv8>): Option<GreetingFields> {
    match ParseWire(b)
    case None => None
    case Some(w) =>
      if |w.connectionId| == 4 && |w.capability| == 4 && |w.status| == 2 then
        Some(GreetingFields(w.protocolVersion, w.serverVersion, Uint32(w.connectionId), w.salt,
                            Uint32(w.capability), w.collation, Uint16(w.status)))
      else None
  }

  /** Reading any payload with the greeting layout gives back its wire fields. */
  lemma ReadLaidOut(g: seq<bv8>, w: Wire)
    requires Sized(w) && 0 !in w.serverVersion
    requires LaidOut(g, w)
    ensures ParseWire(g[4..]) == Some(w)
  {
    var b := g[4..];
    var n := |w.serverVersion|;
    ReadVersion(g, w);
    ReadFixedFields(g, w);
    ParseWireFields(b, n);
  }

  /** In a laid-out greeting the first NUL after the protocol version ends the server version, and the fillers hold their values. */
  lemma ReadVersion(g: seq<bv8>, w: Wire)
    requires Sized(w) && 0 !in w.serverVersion
    requires LaidOut(g, w)
    ensures var b, n := g[4..], |w.serverVersion|;
            && b[0] == w.protocolVersion
            && IndexByte(b[1..], 0) == n && b[1..1 + n] == w.serverVersion
            && b[n + 14] == 0 && b[n + 22] == AUTH_DATA_FILLER && b[n + 23..n + 33] == TenZeros && b[|b| - 1] == 0
  {
    var b := g[4..];
    var n := |w.serverVersion|;
    SubSlice(g, 4, |g|, 1, 1 + n);
    VersionEnds(b, w.serverVersion);
    SubSlice(g, 4, |g|, n + 23, n + 33);
  }

  /** A server version free of NUL bytes, followed by a NUL, ends at that NUL. */
  lemma VersionEnds(b: seq<bv8>, version: seq<bv8>)
    requires |b| >= 2 + |version| && b[1..1 + |version|] == version && b[1 + |version|] == 0
    requires 0 !in version
    ensures IndexByte(b[1..], 0) == |version|
  {
    var n := |version|;
    assert b[1..] == version + [0] + b[2 + n..];
    IndexByteAfter(version, 0, b[2 + n..]);
  }

  /** In a laid-out greeting the fixed fields after the server version carry the id, salt, capability and status bytes. */
  lemma ReadFixedFields(g: seq<bv8>, w: Wire)
    requires Sized(w)
    requires LaidOut(g, w)
    ensures var b, o := g[4..], 2 + |w.serverVersion|;
            && b[o..o + 4] == w.connectionId
            && b[o + 4..o + 12] + b[o + 31..|b| - 1] == w.salt
            && b[o + 13..o + 15] + b[o + 18..o + 20] == w.capability
            && b[o + 15] == w.collation
            && b[o + 16..o + 18] == w.status
  {
    var b := g[4..];
    var o := 2 + |w.serverVersion|;
    assert b[o..o + 4] == g[o + 4..o + 8];
    assert b[o + 4..o + 12] == g[o + 8..o + 16];
    assert b[o + 31..|b| - 1] == g[o + 35..|g| - 1];
    assert w.salt[..8] + w.salt[8..] == w.salt;
    assert b[o + 13..o + 15] == g[o + 17..o + 19];
    assert b[o + 18..o + 20] == g[o + 22..o + 24];
    assert w.capability[..2] + w.capability[2..] == w.capability;
    assert b[o + 16..o + 18] == g[o + 20..o + 22];
  }

  /** Once the server version's NUL and the fillers are where expected, the reader takes each field from its offset. */
  lemma ParseWireFields(b: seq<bv8>, n: nat)
    requires |b| >= n + 34 && IndexByte(b[1..], 0) == n
    requires b[n + 14] == 0 && b[n + 22] == AUTH_DATA_FILLER && b[n + 23..n + 33] == TenZeros && b[|b| - 1] == 0
    ensures var o := 2 + n;
            ParseWire(b) == Some(Wire(
              b[0], b[1..1 + n], b[o..o + 4],
              b[o + 4..o + 12] + b[o + 31..|b| - 1],
              b[o + 13..o + 15] + b[o + 18..o + 20],
              b[o + 15], b[o + 16..o + 18]))
  {
  }

  /**
   * A client reading the greeting recovers the protocol version, the server
   * version, the connection id, the whole salt, the default capability word
   * (from its two split halves), the collation and the status.
   */
  lemma GreetingRoundTrip(k: Constants, connectionId: bv32, salt: seq<bv8>, status: bv16)
    requires |salt| >= 8
    requires 0 !in k.serverVersion
    ensures ParseGreeting(Greeting(k, connectionId, salt, status)[4..])
              == Some(GreetingFields(k.protocolVersion, k.serverVersion, connectionId, salt,
                                     DefaultCapability(k), k.defaultCollationId, status))
  {
    var w := WireOf(k, connectionId, salt, status);
    EncodeLayout(w);
    ReadLaidOut(Encode(w), w);
    Le32RoundTrip(connectionId);
    Le32RoundTrip(DefaultCapability(k));
    Le16RoundTrip(status);
  }
}

=== FILE: handshake_response.dfy ===
/**
 * Parsing of the client's Protocol::HandshakeResponse41 and the login
 * decision (`readHandshakeResponse`).
 *
 * Go slices the payload without bounds checks, so a malformed payload makes
 * it panic rather than return an error. Here every such place is an explicit
 * `Malformed` reason and the outcome `Fault`.
 */
module HandshakeResponse {
  import opened Wrappers
  import opened Bytes
  import opened Mysql

  /** Offset of the user name: capability (4), max packet size (4), charset (1), reserved (23). */
  const USER_OFFSET: nat := 32

  /** The one account the server accepts: user "root" ... */
  const ROOT: seq<bv8> := [0x72, 0x6f, 0x6f, 0x74]
  /** ... with password "123". */
  const PASSWORD: seq<bv8> := [0x31, 0x32, 0x33]
  /** "Yes": the password-used argument of the access-denied message. */
  const YES: seq<bv8> := [0x59, 0x65, 0x73]

  /** The places where the Go code would index or slice out of range. */
  datatype Malformed =
    | ShortCapability     // data[:4] with fewer than 4 bytes
    | ShortFixedPart      // data[32:] with fewer than 32 bytes
    | UnterminatedUser    // no NUL after offset 32: IndexByte returns -1
    | MissingAuthLength   // data[pos] just past the end
    | AuthOverrun         // data[pos:pos+authLen] past the end
    | UnterminatedDb      // database bytes present but no NUL among them

  /** The fields read before the login decision, and the bytes after the auth response. */
  datatype Credentials = Credentials(capability: bv32, user: seq<bv8>, auth: seq<bv8>, rest: seq<bv8>)

  /**
   * Offset of the auth-length byte: just past the NUL that ends the user
   * name, the first NUL from offset 32 on.
   */
  function AuthLengthAt(data: seq<bv8>): (pos: nat)
    requires |data| >= USER_OFFSET && 0 in data[USER_OFFSET..]
    ensures USER_OFFSET < pos <= |data| && data[pos - 1] == 0 && 0 !in data[USER_OFFSET..pos - 1]
  {
    var u := IndexByte(data[USER_OFFSET..], 0);
    assert data[USER_OFFSET..][..u] == data[USER_OFFSET..USER_OFFSET + u];
    USER_OFFSET + u + 1
  }

  /**
   * Reads the capability word, skips the fixed part, reads the NUL-terminated
   * user name and the length-prefixed auth response.
   */
  function ParseCredentials(data: seq<bv8>): (r: Result<Credentials, Malformed>)
    ensures r.Ok? ==>
              var c := r.value;
              var pos := USER_OFFSET + |c.user|;
              && |data| >= pos + 2 + |c.auth|
              && c.capability == Uint32(data[..4])
              && data[USER_OFFSET..pos] == c.user && 0 !in c.user && data[pos] == 0
              && data[pos + 1] as int == |c.auth|
              && data[pos + 2..pos + 2 + |c.auth|] == c.auth
              && c.rest == data[pos + 2 + |c.auth|..]
    ensures r == Err(ShortCapability) <==> |data| < 4
    ensures r == Err(ShortFixedPart) <==> 4 <= |data| < USER_OFFSET
    ensures r == Err(UnterminatedUser) <==> |data| >= USER_OFFSET && 0 !in data[USER_OFFSET..]
    ensures r == Err(MissingAuthLength) <==>
              |data| >= USER_OFFSET && 0 in data[USER_OFFSET..] && AuthLengthAt(data) == |data|
    ensures r == Err(AuthOverrun) <==>
              && |data| >= USER_OFFSET && 0 in data[USER_OFFSET..]
              && AuthLengthAt(data) < |data| && AuthLengthAt(data) + 1 + data[AuthLengthAt(data)] as int > |data|
    ensures r != Err(UnterminatedDb)
  {
    if |data| < 4 then Err(ShortCapability)
    else
      var capability := Uint32(data[..4]);
      if |data| < USER_OFFSET then Err(ShortFixedPart)
      else
        if 0 !in data[USER_OFFSET..] then Err(UnterminatedUser)
        else
          var pos := AuthLengthAt(data);
          var user := data[USER_OFFSET..pos - 1];
          if pos >= |data| then Err(MissingAuthLength)
          else
            var authLen := data[pos] as int;
            if pos + 1 + authLen > |data| then Err(AuthOverrun)
            else
              Ok(Credentials(capability, user, data[pos + 1..pos + 1 + authLen], data[pos + 1 + authLen..]))
  }

  /**
   * The database field after the auth response. `Some(name)` is the value
   * `c.db` takes; `None` leaves `c.db` as it was (the early return when the
   * client asks for a database but sends no bytes for it).
   */
  function DbField(k: Constants, capability: bv32, rest: seq<bv8>): (r: Result<Option<seq<bv8>>, Malformed>)
    ensures !HasFlag(capability, k.clientConnectWithDb) ==> r == Ok(Some([]))
    ensures HasFlag(capability, k.clientConnectWithDb) && |rest| == 0 ==> r == Ok(None)
    ensures HasFlag(capability, k.clientConnectWithDb) && |rest| > 0 ==>
              if 0 in rest then r.Ok? && r.value.Some? && |r.value.value| < |rest| && rest[|r.value.value|] == 0
                                && rest[..|r.value.value|] == r.value.value && 0 !in r.value.value
              else r == Err(UnterminatedDb)
  {
    if !HasFlag(capability, k.clientConnectWithDb) then Ok(Some([]))
    else if |rest| == 0 then Ok(None)
    else
      var i := IndexByte(rest, 0);
      if i < 0 then Err(UnterminatedDb) else Ok(Some(rest[..i]))
  }

  /** The login check: user "root" whose auth response is the scramble of this connection's salt with "123". */
  predicate Authentic(k: Constants, salt: seq<bv8>, user: seq<bv8>, auth: seq<bv8>) {
    user == ROOT && auth == k.calcPassword(salt, PASSWORD)
  }

  /** `NewDefaultError(ER_ACCESS_DENIED_ERROR, user, remoteAddr, "Yes")`. */
  function AccessDenied(k: Constants, user: seq<bv8>, remoteAddr: seq<bv8>): (e: Error)
    ensures e.Sql? && e.sql.code == k.erAccessDenied
    ensures e.sql.message == k.messageOf(k.erAccessDenied, [user, remoteAddr, YES])
  {
    Sql(NewDefaultError(k, k.erAccessDenied, [user, remoteAddr, YES]))
  }

  /**
   * What `readHandshakeResponse` does with a payload: the capability word and
   * user name it stores, and either the database update of a successful
   * login, the access-denied error it returns, or the fault where Go panics.
   */
  datatype Outcome =
    | Accepted(capability: bv32, user: seq<bv8>, db: Option<seq<bv8>>)
    | Denied(capability: bv32, user: seq<bv8>, err: Error)
    | Fault(reason: Malformed)

  /**
   * `readHandshakeResponse` on a payload `data` for a connection with the
   * given salt and remote address. Credentials are checked before the
   * database field is read, so a wrong password is reported as access
   * denied even when the database field is malformed.
   */
  function ReadResponse(k: Constants, salt: seq<bv8>, remoteAddr: seq<bv8>, data: seq<bv8>): (r: Outcome)
    ensures r.Fault? <==>
              ParseCredentials(data).Err?
              || (var c := ParseCredentials(data).value;
                  Authentic(k, salt, c.user, c.auth) && DbField(k, c.capability, c.rest).Err?)
    ensures r.Accepted? ==>
              && ParseCredentials(data).Ok?
              && var c := ParseCredentials(data).value;
              && r.capability == c.capability == Uint32(data[..4])
              && r.user == c.user == ROOT
              && c.auth == k.calcPassword(salt, PASSWORD)
              && DbField(k, c.capability, c.rest) == Ok(r.db)
    ensures r.Denied? <==>
              ParseCredentials(data).Ok?
              && var c := ParseCredentials(data).value; !Authentic(k, salt, c.user, c.auth)
    ensures r.Denied? ==>
              && var c := ParseCredentials(data).value;
              && r.capability == c.capability == Uint32(data[..4])
              && r.user == c.user
              && r.err == AccessDenied(k, c.user, remoteAddr)
  {
    match ParseCredentials(data)
    case Err(why) => Fault(why)
    case Ok(c) =>
      if !Authentic(k, salt, c.user, c.auth) then Denied(c.capability, c.user, AccessDenied(k, c.user, remoteAddr))
      else
        match DbField(k, c.capability, c.rest)
        case Err(why) => Fault(why)
        case Ok(db) => Accepted(c.capability, c.user, db)
  }

  /** The 23 reserved zero bytes before the user name. */
  const Reserved23: seq<bv8> := [0, 0, 0, 0, 0, 0, 0, 0, 0, 0, 0, 0, 0, 0, 0, 0, 0, 0, 0, 0, 0, 0, 0]

  /** Capability word, max packet size, charset and the reserved bytes. */
  function FixedPart(capability: bv32, maxPacket: bv32, charset: bv8): (r: seq<bv8>)
    ensures |r| == USER_OFFSET && r[..4] == Le32(capability)
  {
    Le32(capability) + Le32(maxPacket) + [charset] + Reserved23
  }

  /**
   * Client side: the HandshakeResponse41 payload for the given fields, with
   * the database name appended (NUL-terminated) when there is one.
   */
  function EncodeResponse(capability: bv32, maxPacket: bv32, charset: bv8, user: seq<bv8>, auth: seq<bv8>,
                          db: Option<seq<bv8>>): (data: seq<bv8>)
    requires |auth| < 256
  {
    FixedPart(capability, maxPacket, charset)
      + user + [0]
      + [ByteOf(|auth|)] + auth
      + (if db.Some? then db.value + [0] else [])
  }

  /**
   * The server reads back the capability word, the user name and the auth
   * response a client encoded, and the database bytes are what remains.
   */
  lemma CredentialsRoundTrip(capability: bv32, maxPacket: bv32, charset: bv8, user: seq<bv8>, auth: seq<bv8>,
                             db: Option<seq<bv8>>)
    requires 0 !in user && |auth| < 256
    ensures ParseCredentials(EncodeResponse(capability, maxPacket, charset, user, auth, db))
              == Ok(Credentials(capability, user, auth, if db.Some? then db.value + [0] else []))
  {
    var data := EncodeResponse(capability, maxPacket, charset, user, auth, db);
    EncodedLayout(capability, maxPacket, charset, user, auth, db);
    Le32RoundTrip(capability);
    ReadCredentialFields(data);
  }

  /** Where the fields of an encoded response sit. */
  lemma EncodedLayout(capability: bv32, maxPacket: bv32, charset: bv8, user: seq<bv8>, auth: seq<bv8>,
                      db: Option<seq<bv8>>)
    requires 0 !in user && |auth| < 256
    ensures var data := EncodeResponse(capability, maxPacket, charset, user, auth, db);
            var pos := USER_OFFSET + |user| + 1;
            && |data| > pos + |auth|
            && data[..4] == Le32(capability)
            && 0 in data[USER_OFFSET..] && AuthLengthAt(data) == pos
            && data[USER_OFFSET..pos - 1] == user
            && data[pos] == ByteOf(|auth|)
            && data[pos + 1..pos + 1 + |auth|] == auth
            && data[pos + 1 + |auth|..] == if db.Some? then db.value + [0] else []
  {
    var head := FixedPart(capability, maxPacket, charset);
    var tail := if db.Some? then db.value + [0] else [];
    assert EncodeResponse(capability, maxPacket, charset, user, auth, db)
           == head + user + [0] + [ByteOf(|auth|)] + auth + tail;
    SplitAfterUser(head, user, ByteOf(|auth|), auth, tail);
  }

  /** Slicing `head + user + [0] + [n] + auth + tail` at the offsets the parser uses. */
  lemma SplitAfterUser(head: seq<bv8>, user: seq<bv8>, n: bv8, auth: seq<bv8>, tail: seq<bv8>)
    requires |head| == USER_OFFSET && 0 !in user
    ensures var data := head + user + [0] + [n] + auth + tail;
            var pos := USER_OFFSET + |user| + 1;
            && data[..4] == head[..4]
            && 0 in data[USER_OFFSET..] && AuthLengthAt(data) == pos
            && data[USER_OFFSET..pos - 1] == user
            && data[pos] == n
            && data[pos + 1..pos + 1 + |auth|] == auth
            && data[pos + 1 + |auth|..] == tail
  {
    var data := head + user + [0] + [n] + auth + tail;
    var pos := USER_OFFSET + |user| + 1;
    assert data[USER_OFFSET..pos - 1] == user;
    assert data[pos + 1..] == auth + tail;
    UserTerminator(head, user, [n] + auth + tail);
    assert data == head + user + [0] + ([n] + auth + tail);
  }

  /** The first NUL after the fixed part is the one ending a NUL-free user name. */
  lemma UserTerminator(head: seq<bv8>, user: seq<bv8>, rest: seq<bv8>)
    requires |head| == USER_OFFSET && 0 !in user
    ensures 0 in (head + user + [0] + rest)[USER_OFFSET..]
    ensures AuthLengthAt(head + user + [0] + rest) == USER_OFFSET + |user| + 1
  {
    assert (head + user + [0] + rest)[USER_OFFSET..] == user + [0] + rest;
    IndexByteAfter(user, 0, rest);
  }

  /** Once the user's NUL and the auth length are in bounds, the parser takes each field from its offset. */
  lemma ReadCredentialFields(data: seq<bv8>)
    requires |data| >= USER_OFFSET && 0 in data[USER_OFFSET..]
    requires AuthLengthAt(data) < |data|
    requires AuthLengthAt(data) + 1 + data[AuthLengthAt(data)] as int <= |data|
    ensures var pos := AuthLengthAt(data);
            var n := data[pos] as int;
            ParseCredentials(data)
              == Ok(Credentials(Uint32(data[..4]), data[USER_OFFSET..pos - 1],
                                data[pos + 1..pos + 1 + n], data[pos + 1 + n..]))
  {
  }

  /**
   * Login round trip: a well-formed response from a client is accepted
   * exactly when it carries user "root" and the scramble of the salt with
   * "123"; an accepted login selects the database the client named, keeps
   * the current one when the client asked for one but sent none, and clears
   * it when the client did not ask.
   */
  lemma ResponseRoundTrip(k: Constants, salt: seq<bv8>, remoteAddr: seq<bv8>,
                          capability: bv32, maxPacket: bv32, charset: bv8, user: seq<bv8>, auth: seq<bv8>,
                          db: Option<seq<bv8>>)
    requires 0 !in user && |auth| < 256
    requires db.Some? ==> 0 !in db.value
    ensures ReadResponse(k, salt, remoteAddr, EncodeResponse(capability, maxPacket, charset, user, auth, db))
              == if !Authentic(k, salt, user, auth) then Denied(capability, user, AccessDenied(k, user, remoteAddr))
                 else if !HasFlag(capability, k.clientConnectWithDb) then Accepted(capability, user, Some([]))
                 else Accepted(capability, user, db)
  {
    CredentialsRoundTrip(capability, maxPacket, charset, user, auth, db);
    if db.Some? {
      IndexByteAfter(db.value, 0, []);
      assert db.value + [0] == db.value + [0] + [];
      assert (db.value + [0])[..|db.value|] == db.value;
    }
  }
}

=== FILE: mysql.dfy ===
/**
 * The parts of the `mysql` package that the connection code relies on.
 *
 * That package's source is not part of this model, so every value it defines
 * that the protocol does not pin down (protocol version, server version,
 * default collation, the CLIENT_* capability bits, error codes, the SQL-state
 * and message tables, the length-encoded integer writer and the password
 * scramble) is a field of `Constants`, a parameter of every operation.
 * Only the packet header bytes are fixed, as the wire protocol fixes them.
 */
module Mysql {
  import opened Bytes

  /** First payload byte of an OK packet. */
  const OK_HEADER: bv8 := 0x00
  /** First payload byte of an ERR packet. */
  const ERR_HEADER: bv8 := 0xff
  /** First payload byte of an EOF packet. */
  const EOF_HEADER: bv8 := 0xfe

  type uint64 = x: nat | x < 0x1_0000_0000_0000_0000

  datatype Constants = Constants(
    protocolVersion: bv8,
    serverVersion: seq<bv8>,
    defaultCollationId: bv8,
    clientLongPassword: bv32,
    clientLongFlag: bv32,
    clientConnectWithDb: bv32,
    clientProtocol41: bv32,
    clientTransactions: bv32,
    clientSecureConnection: bv32,
    erAccessDenied: bv16,
    erUnknown: bv16,
    /** SQL state reported with an error code */
    stateOf: bv16 -> seq<bv8>,
    /** message of an error code, formatted with its arguments */
    messageOf: (bv16, seq<seq<bv8>>) -> seq<bv8>,
    /** `PutLengthEncodedInt` */
    lengthEncoded: uint64 -> seq<bv8>,
    /** `CalcPassword(salt, password)`: the expected auth response */
    calcPassword: (seq<bv8>, seq<bv8>) -> seq<bv8>)

  /**
   * The one property of `PutLengthEncodedInt` this model relies on: a value
   * below 251 is written as that single byte.
   */
  ghost predicate ValidConstants(k: Constants) {
    forall n: uint64 {:trigger k.lengthEncoded(n)} :: n < 251 ==> k.lengthEncoded(n) == [ByteOf(n)]
  }

  /** The server's default capability word (`DEFAULT_CAPABILITY`). */
  function DefaultCapability(k: Constants): bv32 {
    k.clientLongPassword | k.clientLongFlag | k.clientConnectWithDb
      | k.clientProtocol41 | k.clientTransactions | k.clientSecureConnection
  }

  /** `capability & flag > 0` on a uint32. */
  predicate HasFlag(capability: bv32, flag: bv32) {
    capability & flag != 0
  }

  /** A `*mysql.SqlError`. */
  datatype SqlError = SqlError(code: bv16, state: seq<bv8>, message: seq<bv8>)

  /** A Go `error` value: a structured SQL error or any other error with its text. */
  datatype Error = Sql(sql: SqlError) | Other(text: seq<bv8>)

  /** `mysql.NewError(code, message)`: the message is kept verbatim. */
  function NewError(k: Constants, code: bv16, message: seq<bv8>): SqlError {
    SqlError(code, k.stateOf(code), message)
  }

  /** `mysql.NewDefaultError(code, args...)`: the message comes from the code's template. */
  function NewDefaultError(k: Constants, code: bv16, args: seq<seq<bv8>>): SqlError {
    SqlError(code, k.stateOf(code), k.messageOf(code, args))
  }

  /**
   * The SQL error `writeError` encodes for `e`: a structured error as it is,
   * anything else wrapped as ER_UNKNOWN_ERROR keeping its text.
   */
  function AsSqlError(k: Constants, e: Error): (m: SqlError)
    ensures e.Sql? ==> m == e.sql
    ensures e.Other? ==> m.code == k.erUnknown && m.message == e.text
  {
    match e
    case Sql(s) => s
    case Other(text) => NewError(k, k.erUnknown, text)
  }

  /** `*mysql.Result` as far as an OK packet reads it. */
  datatype OkResult = OkResult(status: bv16, insertId: uint64, affectedRows: uint64)
}

=== FILE: responses.dfy ===
/**
 * Payloads of the three server response packets (`writeOK`, `writeError`,
 * `writeEOF`, `writeEOFBatch`), each starting with the 4-byte header
 * placeholder, together with client-side readers of the documented layouts
 * that serve as their partners: reading a payload back recovers the fields
 * that were written.
 */
module Responses {
  import opened Wrappers
  import opened Bytes
  import opened Mysql

  /** `c.capability & CLIENT_PROTOCOL_41 > 0`: the 4.1 fields are present. */
  predicate Protocol41(k: Constants, capability: bv32) {
    HasFlag(capability, k.clientProtocol41)
  }

  /** The result an OK packet reports: a nil result means the session status with no rows and no insert id. */
  function OkResultOrDefault(r: Option<OkResult>, sessionStatus: bv16): (res: OkResult)
    ensures r.Some? ==> res == r.value
    ensures r.None? ==> res.status == sessionStatus && res.affectedRows == 0 && res.insertId == 0
  {
    match r
    case Some(v) => v
    case None => OkResult(sessionStatus, 0, 0)
  }

  /** The payload `writeOK(r)` hands to the packet writer. */
  function OkPayload(k: Constants, protocol41: bool, sessionStatus: bv16, r: Option<OkResult>): (p: seq<bv8>)
    ensures var res := OkResultOrDefault(r, sessionStatus);
            |p| == 5 + |k.lengthEncoded(res.affectedRows)| + |k.lengthEncoded(res.insertId)|
                   + if protocol41 then 4 else 0
  {
    var res := OkResultOrDefault(r, sessionStatus);
    var fixed := HeaderPlaceholder + [OK_HEADER] + k.lengthEncoded(res.affectedRows) + k.lengthEncoded(res.insertId);
    if protocol41 then fixed + Le16(res.status) + [0, 0] else fixed
  }

  /**
   * Layout of an OK payload for any length encoding: header byte, the
   * encoded affected rows, the encoded insert id and, under 4.1, the status
   * and two zero bytes.
   */
  lemma OkLayout(k: Constants, protocol41: bool, sessionStatus: bv16, r: Option<OkResult>)
    ensures var p := OkPayload(k, protocol41, sessionStatus, r);
            var res := OkResultOrDefault(r, sessionStatus);
            var rows := k.lengthEncoded(res.affectedRows);
            var id := k.lengthEncoded(res.insertId);
            && p[..4] == HeaderPlaceholder
            && p[4] == OK_HEADER
            && p[5..5 + |rows|] == rows
            && p[5 + |rows|..5 + |rows| + |id|] == id
            && (protocol41 ==> p[|p| - 4..|p| - 2] == Le16(res.status) && p[|p| - 2..] == [0, 0])
  {
    var res := OkResultOrDefault(r, sessionStatus);
    var rows := k.lengthEncoded(res.affectedRows);
    var id := k.lengthEncoded(res.insertId);
    var fixed := HeaderPlaceholder + [OK_HEADER] + rows + id;
    assert fixed[5..5 + |rows|] == rows;
    assert fixed[5 + |rows|..] == id;
  }

  /** What a client reads from an OK packet; `status` is absent without the 4.1 fields. */
  datatype OkFields = OkFields(affectedRows: nat, insertId: nat, status: Option<bv16>)

  /**
   * Client-side reader of an OK packet body (the payload after the 4-byte
   * header) whose two counts each fit the single-byte length encoding.
   */
  function ParseOk(protocol41: bool, b: seq<bv8>): Option<OkFields> {
    if |b| < 3 || b[0] != OK_HEADER || b[1] as nat >= 251 || b[2] as nat >= 251 then None
    else if protocol41 then
      if |b| == 7 && b[5..7] == [0, 0] then Some(OkFields(b[1] as nat, b[2] as nat, Some(Uint16(b[3..5]))))
      else None
    else if |b| == 3 then Some(OkFields(b[1] as nat, b[2] as nat, None))
    else None
  }

  /** Reading back an OK packet with small counts recovers the counts and, under 4.1, the status. */
  lemma OkRoundTrip(k: Constants, protocol41: bool, sessionStatus: bv16, r: Option<OkResult>)
    requires ValidConstants(k)
    requires r.Some? ==> r.value.affectedRows < 251 && r.value.insertId < 251
    ensures var res := OkResultOrDefault(r, sessionStatus);
            ParseOk(protocol41, OkPayload(k, protocol41, sessionStatus, r)[4..])
              == Some(OkFields(res.affectedRows, res.insertId,
                               if protocol41 then Some(res.status) else None))
  {
    var res := OkResultOrDefault(r, sessionStatus);
    var rows, id := ByteOf(res.affectedRows), ByteOf(res.insertId);
    assert k.lengthEncoded(res.affectedRows) == [rows];
    assert k.lengthEncoded(res.insertId) == [id];
    var p41 := protocol41;
    var tail := if p41 then Le16(res.status) + [0, 0] else [];
    OkBody(k, protocol41, sessionStatus, r, rows, id);
    ReadSmallOk(p41, res.affectedRows, res.insertId, res.status);
    assert OkPayload(k, protocol41, sessionStatus, r)[4..] == [OK_HEADER, rows, id] + tail;
  }

  /** When both counts encode as single bytes, the OK body is header, those two bytes and the optional 4.1 tail. */
  lemma OkBody(k: Constants, protocol41: bool, sessionStatus: bv16, r: Option<OkResult>, rows: bv8, id: bv8)
    requires k.lengthEncoded(OkResultOrDefault(r, sessionStatus).affectedRows) == [rows]
    requires k.lengthEncoded(OkResultOrDefault(r, sessionStatus).insertId) == [id]
    ensures OkPayload(k, protocol41, sessionStatus, r)[4..]
              == [OK_HEADER, rows, id]
                 + (if protocol41 then Le16(OkResultOrDefault(r, sessionStatus).status) + [0, 0] else [])
  {
    var fixed := HeaderPlaceholder + [OK_HEADER] + [rows] + [id];
    assert fixed[4..] == [OK_HEADER, rows, id];
  }

  /** The reader takes the two single-byte counts and, under 4.1, the status. */
  lemma ReadSmallOk(protocol41: bool, rows: nat, id: nat, status: bv16)
    requires rows < 251 && id < 251
    ensures ParseOk(protocol41, [OK_HEADER, ByteOf(rows), ByteOf(id)] + (if protocol41 then Le16(status) + [0, 0] else []))
              == Some(OkFields(rows, id, if protocol41 then Some(status) else None))
  {
    if protocol41 {
      ReadOk41(ByteOf(rows), ByteOf(id), status);
    } else {
      ReadOkPlain(ByteOf(rows), ByteOf(id));
    }
  }

  /** A 4.1 OK body with single-byte counts. */
  lemma ReadOk41(rows: bv8, id: bv8, status: bv16)
    requires rows as nat < 251 && id as nat < 251
    ensures ParseOk(true, [OK_HEADER, rows, id] + Le16(status) + [0, 0])
              == Some(OkFields(rows as nat, id as nat, Some(status)))
  {
    var b := [OK_HEADER, rows, id] + Le16(status) + [0, 0];
    assert b[3..5] == Le16(status) && b[5..7] == [0, 0];
    Le16RoundTrip(status);
  }

  /** A pre-4.1 OK body with single-byte counts. */
  lemma ReadOkPlain(rows: bv8, id: bv8)
    requires rows as nat < 251 && id as nat < 251
    ensures ParseOk(false, [OK_HEADER, rows, id] + []) == Some(OkFields(rows as nat, id as nat, None))
  {
  }

  /** The payload `writeError(e)` hands to the packet writer. */
  function ErrPayload(k: Constants, protocol41: bool, e: Error): (p: seq<bv8>)
    ensures var m := AsSqlError(k, e);
            var tag := if protocol41 then 1 + |m.state| else 0;
            && |p| == 7 + tag + |m.message|
            && p[..4] == HeaderPlaceholder
            && p[4] == ERR_HEADER
            && p[5..7] == Le16(m.code)
            && (protocol41 ==> p[7] == '#' as bv8 && p[8..8 + |m.state|] == m.state)
            && p[7 + tag..] == m.message
  {
    var m := AsSqlError(k, e);
    var fixed := HeaderPlaceholder + [ERR_HEADER] + Le16(m.code);
    if protocol41 then fixed + ['#' as bv8] + m.state + m.message
    else fixed + m.message
  }

  /** What a client reads from an ERR packet; `state` is absent without the 4.1 fields. */
  datatype ErrFields = ErrFields(code: bv16, state: Option<seq<bv8>>, message: seq<bv8>)

  /** Client-side reader of an ERR packet body; a 4.1 state is the 5 bytes after '#'. */
  function ParseErr(protocol41: bool, b: seq<bv8>): Option<ErrFields> {
    if |b| < 3 || b[0] != ERR_HEADER then None
    else if protocol41 then
      if |b| >= 9 && b[3] == '#' as bv8 then Some(ErrFields(Uint16(b[1..3]), Some(b[4..9]), b[9..]))
      else None
    else Some(ErrFields(Uint16(b[1..3]), None, b[3..]))
  }

  /**
   * Reading back an ERR packet recovers the code, the state (under 4.1, when
   * it has the standard five bytes) and the whole message, so the message
   * needs no terminator.
   */
  lemma ErrRoundTrip(k: Constants, protocol41: bool, e: Error)
    requires protocol41 ==> |AsSqlError(k, e).state| == 5
    ensures var m := AsSqlError(k, e);
            ParseErr(protocol41, ErrPayload(k, protocol41, e)[4..])
              == Some(ErrFields(m.code, if protocol41 then Some(m.state) else None, m.message))
  {
    var m := AsSqlError(k, e);
    var b := ErrPayload(k, protocol41, e)[4..];
    Le16RoundTrip(m.code);
    if protocol41 {
      assert b == [ERR_HEADER] + Le16(m.code) + ['#' as bv8] + m.state + m.message;
      assert b[1..3] == Le16(m.code);
      assert b[4..9] == m.state;
      assert b[9..] == m.message;
    } else {
      assert b == [ERR_HEADER] + Le16(m.code) + m.message;
      assert b[1..3] == Le16(m.code);
      assert b[3..] == m.message;
    }
  }

  /** The payload `writeEOF(status)` hands to the packet writer. */
  function EofPayload(k: Constants, protocol41: bool, status: bv16): (p: seq<bv8>)
    ensures |p| == if protocol41 then 9 else 5
    ensures p[..4] == HeaderPlaceholder && p[4] == EOF_HEADER
    ensures protocol41 ==> p[5..7] == [0, 0] && p[7..9] == Le16(status)
  {
    var fixed := HeaderPlaceholder + [EOF_HEADER];
    if protocol41 then fixed + [0, 0] + Le16(status) else fixed
  }

  /** Client-side reader of an EOF packet body; `status` is absent without the 4.1 fields. */
  function ParseEof(protocol41: bool, b: seq<bv8>): Option<Option<bv16>> {
    if |b| == 0 || b[0] != EOF_HEADER then None
    else if protocol41 then
      if |b| == 5 && b[1..3] == [0, 0] then Some(Some(Uint16(b[3..5]))) else None
    else if |b| == 1 then Some(None)
    else None
  }

  /** Reading back an EOF packet recovers the status under 4.1. */
  lemma EofRoundTrip(k: Constants, protocol41: bool, status: bv16)
    ensures ParseEof(protocol41, EofPayload(k, protocol41, status)[4..])
              == Some(if protocol41 then Some(status) else None)
  {
    var b := EofPayload(k, protocol41, status)[4..];
    if protocol41 {
      assert b[3..5] == Le16(status);
      Le16RoundTrip(status);
    }
  }

  /** A call of the batch writer: the accumulated bytes, the new payload and whether to flush. */
  datatype BatchWrite = BatchWrite(total: seq<bv8>, payload: seq<bv8>, direct: bool)

  /**
   * `writeEOFBatch(total, status, direct)`: the same EOF payload as
   * `writeEOF`, handed to the batch writer together with `total` and `direct`.
   */
  function EofBatch(k: Constants, protocol41: bool, total: seq<bv8>, status: bv16, direct: bool): (w: BatchWrite)
    ensures w.payload == EofPayload(k, protocol41, status)
    ensures w.total == total && w.direct == direct
  {
    var fixed := HeaderPlaceholder + [EOF_HEADER];
    BatchWrite(total, if protocol41 then fixed + [0, 0] + Le16(status) else fixed, direct)
  }
}

=== FILE: wrappers.dfy ===
/** Small failure-carrying datatypes used throughout the model. */
module Wrappers {

  /** A value that may be absent (Go's nil pointer, a missing field). */
  datatype Option<+T> = None | Some(value: T)

  /** Either a parsed value or the reason it could not be produced. */
  datatype Result<+T, +E> = Ok(value: T) | Err(error: E)
}
